=== FILE: README.md ===
# Community events server: events and participation

This project models the collections of the events server of Project1.0-App and the validation rules that guard them.
It covers three pieces:

- the Mongoose schema of an event: fields, the `trim` setter, defaults and validators;
- the event handlers: create, list all, get by id, list by owner, get by code, update and delete;
- the participation handlers: join, forfeit, the per-user listing and the membership check.

The model is sequential. One request is handled at a time.

- `event_schema.dfy`, module `EventSchema` (Event.js). An `Event` datatype holds a stored document. A `Draft` is the plain object handed to Mongoose, where any field may be absent. `ApplySetters` and `ApplyDefaults` do Mongoose's casting. `PathOk` is the validator of each path. `Validate` is `save`: it returns the stored event or the set of failing paths. `UpdateViolations` holds the update validators that `runValidators: true` runs. `WellFormed` is what every stored event satisfies at any time. `ValidEvent(e, now)` adds the date validator, with `now` standing for `new Date()`. Dates are integer timestamps. `Trim` is JavaScript's `String.prototype.trim` over the ECMAScript white-space and line-terminator characters.
- `event_routes.dfy`, module `EventRoutes` (eventRoute.js). The class `EventStore` holds the collection as a map from id to `Event`. It also holds a counter that hands out fresh ids, so ascending id order is insertion order. `Create`, `Update` and `Delete` are methods that change the map. The queries are functions over the map: `ListAll`, `ListByOwner`, `GetById` and `GetByCode`. `TableOk` is the collection invariant: ids below the counter, every event well formed, and codes unique.
- `join_routes.dfy`, module `JoinRoutes` (eventjoinRoute.js). The class `JoinStore` holds the join records as a sequence in insertion order. `Join` and `Forfeit` are methods. `FindJoin`, `IsJoined`, `JoinedBy` and `JoinedEvents` are functions. The invariant is `AtMostOnePerPair` together with `AscendingIds`: record ids come from a counter, so they ascend in collection order. The user directory is a parameter: the set of existing user ids. The event collection is passed in as the `EventStore`'s map.
- `http.dfy`, module `Http`: the replies, with the handlers' own messages. `wrappers.dfy`: `Option`.
- `scenario.dfy`, module `Scenario`: a client that derives two outcomes from the contracts alone. First, creating any valid event with an unused code makes it visible to both lookups and to its owner's listing. Second, joining, joining again and forfeiting gives 201, 400 and 200, and the pair ends up not joined.

Request fields are `Option` values. In a create request, `None` stands for every JavaScript-falsy value that the handler's `!x` checks reject: absent, `''`, or an empty date. The create handler's `!name || ...` check is `HasRequiredFields`. In an update request, `None` is a field the request leaves out: it is `undefined`, so it is not part of the update document. An empty field in an update is present. An empty string is `Some("")`, and an empty date is `Some(NullDate)`, because Mongoose casts `''` to `null` on a Date path. The validators of that path then refuse it.

Three behaviours of the handlers are worth stating on their own:

- **An update re-checks the date.** `findByIdAndUpdate` runs with `runValidators: true` (eventRoute.js:147-150). Mongoose update validators include the custom validators of the paths being set. So an update that sets `date` is refused when that date is before `now` (`PathOk`, `DatePath`). An update that clears the date is refused as well (`ClearedDateIsRefused`).
- **Schema failures are forwarded.** A `ValidationError` thrown by `save` or `findByIdAndUpdate` is passed to `next(error)` (eventRoute.js:71-73 and 155-157). The event handlers do not answer it with 400 themselves. That covers a past date, a bad category, an over-long field, and a field that trims to `''`. The model gives such a result as `Forwarded(paths)`. The actual reply depends on the application's error middleware, which is not part of this model. `Status.Code` gives 500 for it, which is Express's default for an error without a status.
- **An update validates before the lookup.** Mongoose runs update validators before it sends the query. An invalid update of an unknown id is therefore forwarded as an error, not answered with 404.

## Model

| member | source | states |
|---|---|---|
| EventSchema.Trim | Project1.0-App-main/Server/Model/Event.js:9 | the trimmed string has no white space at either end, is no longer than the input, and equals the input when no character was removed |
| EventSchema.TrimRemovesOnlyEnds | Project1.0-App-main/Server/Model/Event.js:9 | the trimmed string is a contiguous slice of the input, and every character outside that slice is white space: only the ends are removed |
| EventSchema.TrimStart | Project1.0-App-main/Server/Model/Event.js:9 | the result is a suffix of the input whose first character is not white space, and every character removed is white space |
| EventSchema.TrimEnd | Project1.0-App-main/Server/Model/Event.js:9 | the result is a prefix of the input whose last character is not white space, and every character removed is white space |
| EventSchema.TrimKeepsTrimmed | Project1.0-App-main/Server/Model/Event.js:17 | a string without white space at its ends is left unchanged by the trim setter |
| EventSchema.TrimIdempotent | Project1.0-App-main/Server/Model/Event.js:36 | trimming twice is trimming once |
| EventSchema.ApplySetters | Project1.0-App-main/Server/Model/Event.js:6-42 | casting replaces a given name, code, location or description by its trimmed value, keeps an absent one absent, and leaves date, category, image and user as given |
| EventSchema.ApplyDefaults | Project1.0-App-main/Server/Model/Event.js:40-59 | an absent description or image becomes `''`, a given one is kept, and every other field is left as given |
| EventSchema.PathOk | Project1.0-App-main/Server/Model/Event.js:6-65 | the validators of one path: name required and at most 100; code required with min and max length 8; date required (not null) and not before `now`; location required and at most 200; description at most 1000; category required and in the enumeration; user required |
| EventSchema.Violations | Project1.0-App-main/Server/Model/Event.js:6-65 | a path is reported exactly when its validators reject the cast value: name required and at most 100; code required and exactly 8 (min and max length); date required and not before `now`; location required and at most 200; description at most 1000; category required and one of the three; user required |
| EventSchema.UpdateViolations | Project1.0-App-main/Server/Routes/eventRoute.js:147-150 | the update validators reject exactly the paths that the update sets and whose value fails that path's validators |
| EventSchema.Validate | Project1.0-App-main/Server/Model/Event.js:4-70 | `save` fails exactly when some path is violated, reporting all of them; a stored event is valid at `now` |
| EventSchema.ValidEvent | Project1.0-App-main/Server/Model/Event.js:6-65 | an event the schema accepts at `now`: trimmed, within the length bounds, a listed category, and a date not before `now` |
| EventSchema.ValidateStores | Project1.0-App-main/Server/Model/Event.js:40-59 | the stored event holds the trimmed name, code, location and description, description `''` and image `''` when absent, and date, category and owner as given |
| EventSchema.ValidateAcceptsValid | Project1.0-App-main/Server/Model/Event.js:6-65 | saving the fields of any valid event stores exactly that event (round trip) |
| EventSchema.CastKeepsWellFormed | Project1.0-App-main/Server/Model/Event.js:9-43 | setters and defaults do not change the fields of a well-formed event |
| EventSchema.MissingRequiredIsInvalid | Project1.0-App-main/Server/Model/Event.js:8-64 | a draft without name, code, date, location, category or user, or with a null date, is never stored |
| EventSchema.MissingRequiredFails | Project1.0-App-main/Server/Model/Event.js:8-64 | a cast document without a required field, or with a null date, fails at least one path |
| EventSchema.PastDateIsInvalid | Project1.0-App-main/Server/Model/Event.js:22-31 | a date earlier than `now` is refused, and the date path is among the errors |
| EventSchema.UnknownCategoryIsInvalid | Project1.0-App-main/Server/Model/Event.js:47-54 | a category outside Food Donation, Tree Planting and Cleaning is refused, and the category path is among the errors |
| EventSchema.UpdateKeepsWellFormed | Project1.0-App-main/Server/Routes/eventRoute.js:147-150 | an update whose set paths pass the update validators leaves a well-formed event well formed |
| EventRoutes.HasRequiredFields | Project1.0-App-main/Server/Routes/eventRoute.js:29 | the first create check: name, code, date, location, category and user are all truthy |
| EventRoutes.NewEventDraft | Project1.0-App-main/Server/Routes/eventRoute.js:52-63 | the new document carries name, code, location, category and owner as sent, the date as sent, description `description \|\| ''`, and image `uploads/events/` followed by the uploaded file name |
| EventRoutes.UpdateDraft | Project1.0-App-main/Server/Routes/eventRoute.js:139-145 | the update document carries the body's five fields as sent, never a code or an owner, and an image exactly when a file was uploaded |
| EventRoutes.ClearedDateIsRefused | Project1.0-App-main/Server/Routes/eventRoute.js:139-150 | an update whose date field is empty sets the date path to null, and the update validators refuse that path |
| EventRoutes.Updated | Project1.0-App-main/Server/Routes/eventRoute.js:139-150 | an update replaces exactly the fields the body gives, trimmed where the schema trims. Code and owner never change. The image changes only when a file is uploaded, to its upload path |
| EventRoutes.EventStore.Create | Project1.0-App-main/Server/Routes/eventRoute.js:25-74 | the checks apply in source order: missing field, then missing image, then code length, then duplicate code (each a 400), then a schema failure (forwarded). Every failure leaves the collection unchanged. On success the reply is 201 and exactly one event is added under a fresh id; existing events are untouched |
| EventRoutes.EventStore.Insert | Project1.0-App-main/Server/Routes/eventRoute.js:65 | `save` adds the event under a fresh id and keeps the collection invariant |
| EventRoutes.SavedCodeAsGiven | Project1.0-App-main/Server/Routes/eventRoute.js:43-50 | an 8-character code that passes validation is stored as given, so the duplicate check on the request's code guards the stored code |
| EventRoutes.InsertKeepsTableOk | Project1.0-App-main/Server/Routes/eventRoute.js:47-65 | adding a well-formed event whose code is unused keeps codes unique and ids below the counter |
| EventRoutes.Scan | Project1.0-App-main/Server/Routes/eventRoute.js:79 | the unsorted find returns only stored documents, in strictly ascending id order |
| EventRoutes.ScanComplete | Project1.0-App-main/Server/Routes/eventRoute.js:79 | the unsorted find misses no stored document |
| EventRoutes.ScanMembers | Project1.0-App-main/Server/Routes/eventRoute.js:79 | a document is found exactly when it is stored |
| EventRoutes.ScanLength | Project1.0-App-main/Server/Routes/eventRoute.js:79 | the find returns as many documents as there are ids, each once |
| EventRoutes.InsertByDate | Project1.0-App-main/Server/Routes/eventRoute.js:81 | inserting into a date-sorted list keeps it sorted and adds exactly that document |
| EventRoutes.FirstBeforeRest | Project1.0-App-main/Server/Routes/eventRoute.js:81 | a document no later than every other stays first after an insertion |
| EventRoutes.SortByDate | Project1.0-App-main/Server/Routes/eventRoute.js:81 | the result is ascending by date and a permutation of the input |
| EventRoutes.ListAll | Project1.0-App-main/Server/Routes/eventRoute.js:77-91 | every stored event and nothing else, ascending by date, as a permutation of the collection |
| EventRoutes.ListAllLength | Project1.0-App-main/Server/Routes/eventRoute.js:79-81 | the listing has exactly as many entries as the collection |
| EventRoutes.OwnedBy | Project1.0-App-main/Server/Routes/eventRoute.js:111 | keeps exactly the documents whose owner is the given user, each as often as in the input, and drops the others |
| EventRoutes.ListByOwner | Project1.0-App-main/Server/Routes/eventRoute.js:109-119 | the events whose `user` is the given id and nothing else, ascending by date |
| EventRoutes.AscendingIdsOnce | Project1.0-App-main/Server/Routes/eventRoute.js:111 | documents listed in strictly ascending id order occur at most once each |
| EventRoutes.ListByOwnerOnce | Project1.0-App-main/Server/Routes/eventRoute.js:109-119 | the owner's listing holds each of the owner's events exactly once, and no other document |
| EventRoutes.GetById | Project1.0-App-main/Server/Routes/eventRoute.js:94-106 | finds a document exactly when the id is stored (otherwise 404), and returns the stored event |
| EventRoutes.FirstWithCode | Project1.0-App-main/Server/Routes/eventRoute.js:124 | a document with the code that no earlier document shares (the first), or none exactly when no document has it |
| EventRoutes.GetByCode | Project1.0-App-main/Server/Routes/eventRoute.js:122-134 | finds a stored event with the code, or nothing (404) exactly when no stored event has it |
| EventRoutes.GetByCodeFindsOwner | Project1.0-App-main/Server/Routes/eventRoute.js:124-130 | because codes are unique, looking up a stored event's code returns that very event |
| EventRoutes.LookupsAfterCreate | Project1.0-App-main/Server/Routes/eventRoute.js:52-70 | after a create, get by id and get by code both return the new event |
| EventRoutes.EventStore.Update | Project1.0-App-main/Server/Routes/eventRoute.js:137-158 | a validation failure is forwarded (a cleared date always is), and otherwise an unknown id gives 404. In both cases nothing changes. Otherwise only that event is replaced by its update, and the reply carries the new document |
| EventRoutes.ReplaceKeepsTableOk | Project1.0-App-main/Server/Routes/eventRoute.js:147-150 | replacing an event by a well-formed one with the same code keeps the collection invariant |
| EventRoutes.EventStore.Delete | Project1.0-App-main/Server/Routes/eventRoute.js:161-176 | an unknown id gives 404 and changes nothing; otherwise exactly that event is removed and returned. Only the event store is modified, so join records stay |
| EventRoutes.RemoveKeepsTableOk | Project1.0-App-main/Server/Routes/eventRoute.js:163 | removing an event keeps the collection invariant |
| JoinRoutes.FindJoin | Project1.0-App-main/Server/Routes/eventjoinRoute.js:31 | the position of the first record of the pair, or none exactly when no record has the pair |
| JoinRoutes.IsJoined | Project1.0-App-main/Server/Routes/eventjoinRoute.js:115-124 | true exactly when a record of the pair exists; it is a function, so it has no side effects |
| JoinRoutes.RemoveAt | Project1.0-App-main/Server/Routes/eventjoinRoute.js:77 | removing the record at one position leaves one record fewer, with the others kept in order |
| JoinRoutes.RemoveById | Project1.0-App-main/Server/Routes/eventjoinRoute.js:77 | `deleteOne({ _id })` never adds a record; what it drops and keeps is stated by `RemoveByIdCounts` and `RemoveByIdKeepsAscending` |
| JoinRoutes.RemoveByIdCounts | Project1.0-App-main/Server/Routes/eventjoinRoute.js:77 | every record carrying the id is dropped, and every other record keeps its multiplicity |
| JoinRoutes.RemoveByIdAbove | Project1.0-App-main/Server/Routes/eventjoinRoute.js:77 | deleting adds no id: if every id was above a bound, every remaining id still is |
| JoinRoutes.RemoveByIdKeepsAscending | Project1.0-App-main/Server/Routes/eventjoinRoute.js:77 | the surviving records stay in collection order: ascending ids remain ascending |
| JoinRoutes.RemoveByIdAbsent | Project1.0-App-main/Server/Routes/eventjoinRoute.js:77 | deleting an id that no record carries changes nothing |
| JoinRoutes.RemoveByIdAt | Project1.0-App-main/Server/Routes/eventjoinRoute.js:69-77 | when no other record shares the id of the record `findOne` found, deleting by that id removes exactly that record |
| JoinRoutes.AscendingUnique | Project1.0-App-main/Server/Routes/eventjoinRoute.js:39-40 | record ids that ascend in collection order are unique |
| JoinRoutes.RemoveKeepsAscending | Project1.0-App-main/Server/Routes/eventjoinRoute.js:77 | removing a record keeps the ids ascending |
| JoinRoutes.AppendKeepsAtMostOne | Project1.0-App-main/Server/Routes/eventjoinRoute.js:31-40 | saving a record of a pair that is not joined keeps at most one record per pair |
| JoinRoutes.RemoveKeepsAtMostOne | Project1.0-App-main/Server/Routes/eventjoinRoute.js:69-77 | removing a record keeps at most one record per pair |
| JoinRoutes.RemoveClearsPair | Project1.0-App-main/Server/Routes/eventjoinRoute.js:69-84 | with at most one record per pair, removing the pair's record leaves it not joined |
| JoinRoutes.RemoveKeepsOtherPairs | Project1.0-App-main/Server/Routes/eventjoinRoute.js:77 | removing one pair's record leaves the membership of every other pair as it was |
| JoinRoutes.AppendKeepsOtherPairs | Project1.0-App-main/Server/Routes/eventjoinRoute.js:39-40 | adding one pair's record leaves the membership of every other pair as it was |
| JoinRoutes.ForfeitUndoesJoin | Project1.0-App-main/Server/Routes/eventjoinRoute.js:39-77 | a forfeit right after a successful join finds the new record and restores the relation |
| JoinRoutes.JoinedBy | Project1.0-App-main/Server/Routes/eventjoinRoute.js:99 | exactly the records whose user is the given id, each as often as in the collection, and no others |
| JoinRoutes.JoinedEvents | Project1.0-App-main/Server/Routes/eventjoinRoute.js:95-112 | entry i is the user's i-th record, one entry per record. Each entry carries its event when that event exists and is absent otherwise |
| JoinRoutes.DeletedEventShowsAbsent | Project1.0-App-main/Server/Routes/eventjoinRoute.js:99-101 | deleting an event does not remove join records: the listing keeps them, with that event absent |
| JoinRoutes.JoinStore.Join | Project1.0-App-main/Server/Routes/eventjoinRoute.js:9-53 | the checks apply in source order: a missing id gives 400, an unknown event 404, an unknown user 404, an existing pair 400. Every failure leaves the relation unchanged. On success exactly one record is added, the reply is 201, the pair becomes joined and every other pair is unchanged |
| JoinRoutes.JoinStore.Forfeit | Project1.0-App-main/Server/Routes/eventjoinRoute.js:57-92 | a missing id gives 400 and a pair that is not joined gives 404; neither changes anything. Otherwise the record `findOne` found is deleted by its id, which removes exactly that record, the reply is 200, the pair becomes not joined and every other pair is unchanged |
| Scenario.BodyOfValidEvent | Project1.0-App-main/Server/Routes/eventRoute.js:27-63 | a request listing the fields of a valid event passes every create check and saves exactly that event |
| Scenario.ParticipantJoinsAndLeaves | Project1.0-App-main/Server/Routes/eventjoinRoute.js:9-92 | an existing user joining an existing event is answered 201, a second join 400 and a forfeit 200, after which the pair is not joined |
| Scenario.JoinTwice | Project1.0-App-main/Server/Routes/eventjoinRoute.js:9-55 | on a store where an existing user has not joined an existing event, a first join is answered 201 and a second 400, and the pair ends up joined with the store's invariant kept |
| Scenario.CreateThenLookUp | Project1.0-App-main/Server/Routes/eventRoute.js:25-134 | creating a valid event with an unused code makes it the answer of get by id and get by code, and puts it in its owner's listing |

## Left out

- HTTP plumbing is not modelled: Express routing, the JSON envelope and `console.log`. Store failures are not modelled either, because the store never fails in this model. Those failures would reach the `catch` blocks, where the participation handlers answer 500 themselves (eventjoinRoute.js:49-52, 85-91) and the event handlers call `next(error)`. The reply to `next(error)` comes from the application's error middleware, which is not part of this model.
- File handling is not modelled. The upload file name is an input, and the `Date.now()`-based naming by multer storage is left out. Deleting the image file on delete (`fs.existsSync` and `fs.unlinkSync`) is file-system I/O and is also left out.
- Mongoose and MongoDB are not modelled. Mongoose parts left out: ObjectId generation and its `CastError` on a malformed id, `populate` of the user, `select` projections, and the `createdAt`/`updatedAt` timestamps. The collection is an in-memory map with a fresh-id counter.
- Dates are integer timestamps. A date string that `new Date` cannot parse (a `CastError`) is not modelled.
- Query filters are compared as given. Mongoose's casting of a filter value through the `trim` setter is not modelled. This does not change the duplicate-code check of create, because `SavedCodeAsGiven` shows that an accepted code was already trimmed.
- The MongoDB unique index on `code` is not modelled as a separate check. In a sequential run, the duplicate-code check before `save` already rules out the index violation.
- Lengths count characters. JavaScript's `length` counts UTF-16 code units, so the model can differ from it for characters outside the Basic Multilingual Plane.
- Concurrent requests are not modelled. Two requests can interleave between the existence check and the insert, for codes and for join pairs, and that race is out of scope.
- The `User` model is not part of this model. Users are a set of existing ids.
- The client components (`EventHostPart.jsx`, `EventCreate.jsx`) are not part of this model. They only repeat the server's checks inside UI state.
- Sorting by date is a stable insertion sort, so equal dates stay in insertion order. MongoDB does not fix an order for ties, so this is one of the orders it allows.

=== FILE: event_routes.dfy ===
/**
 * The event handlers: create, list, get by id, get by owner, get by code,
 * update and delete, over the collection of event documents.
 *
 * The collection is a map from document id to Event. Ids come from a counter,
 * so a fresh id is never in use and ascending id order is insertion order,
 * the order in which an unsorted find returns documents.
 */
module EventRoutes {
  import opened Wrappers
  import opened EventSchema
  import opened Http

  type EventId = nat

  /** A stored document together with its id, as the queries return it. */
  datatype Doc = Doc(id: EventId, event: Event)

  const UploadDir: string := "uploads/events/"

  const MsgMissingFields: string := "All required fields must be provided"
  const MsgImageRequired: string := "Event image is required"
  const MsgCodeLength: string := "Event code must be 8 characters"
  const MsgCodeExists: string := "Event code already exists"
  const MsgCreated: string := "Event created successfully"
  const MsgNotFound: string := "Event not found"
  const MsgUpdated: string := "Event updated successfully"
  const MsgDeleted: string := "Event deleted successfully"

  /** The multipart fields of a create request. */
  datatype CreateBody = CreateBody(
    name: Option<string>,
    code: Option<string>,
    date: Option<int>,
    location: Option<string>,
    description: Option<string>,
    category: Option<string>,
    user: Option<UserId>)

  /** The multipart fields an update request may carry. `None` is a field the
      request leaves out (undefined, so not part of the update document); an
      empty field is present: `Some("")`, or `Some(NullDate)` for the date,
      since Mongoose casts an empty string to `null` on a Date path. */
  datatype UpdateBody = UpdateBody(
    name: Option<string>,
    date: Option<DateValue>,
    location: Option<string>,
    description: Option<string>,
    category: Option<string>)

  /** The first check of create: every required field is truthy. */
  predicate HasRequiredFields(b: CreateBody) {
    RequiredString(b.name) && RequiredString(b.code) && b.date.Some? && RequiredString(b.location)
    && RequiredString(b.category) && b.user.Some?
  }

  /** The stored path of an uploaded file. */
  function ImagePath(filename: string): string {
    UploadDir + filename
  }

  /** The object create hands to `new Event(...)`. */
  function NewEventDraft(b: CreateBody, filename: string): (d: Draft)
    ensures d.description.Some? && d.image == Some(ImagePath(filename))
    ensures d.date == if b.date.Some? then Some(At(b.date.value)) else None
    ensures d.name == b.name && d.code == b.code && d.location == b.location
    ensures d.category == b.category && d.user == b.user
    ensures RequiredString(b.description) ==> d.description == b.description
    ensures !RequiredString(b.description) ==> d.description == Some("")
  {
    Draft(b.name, b.code, if b.date.Some? then Some(At(b.date.value)) else None, b.location,
          Some(if RequiredString(b.description) then b.description.value else ""),
          b.category, Some(ImagePath(filename)), b.user)
  }

  /** The update document: the body's fields, and the image only when a file
      was uploaded; absent (undefined) fields are not part of it. */
  function UpdateDraft(b: UpdateBody, file: Option<string>): (d: Draft)
    ensures d.code.None? && d.user.None?
    ensures d.image.Some? <==> file.Some?
    ensures d.name == b.name && d.date == b.date && d.location == b.location
    ensures d.description == b.description && d.category == b.category
  {
    Draft(b.name, None, b.date, b.location, b.description, b.category,
          if file.Some? then Some(ImagePath(file.value)) else None, None)
  }

  /** The event an accepted update leaves behind. */
  function Updated(e: Event, b: UpdateBody, file: Option<string>): (r: Event)
    ensures r.code == e.code && r.user == e.user
    ensures r.image == if file.Some? then ImagePath(file.value) else e.image
    ensures r.name == if b.name.Some? then Trim(b.name.value) else e.name
    ensures r.date == if b.date.Some? && b.date.value.At? then b.date.value.time else e.date
    ensures r.location == if b.location.Some? then Trim(b.location.value) else e.location
    ensures r.description == if b.description.Some? then Trim(b.description.value) else e.description
    ensures r.category == if b.category.Some? then b.category.value else e.category
  {
    Apply(e, ApplySetters(UpdateDraft(b, file)))
  }

  /** Some stored event has this code. */
  predicate CodeTaken(m: map<EventId, Event>, code: string) {
    exists id :: id in m && m[id].code == code
  }

  /** The code of an event identifies it. */
  ghost predicate CodesUnique(m: map<EventId, Event>) {
    forall i, j :: i in m && j in m && i != j ==> m[i].code != m[j].code
  }

  /** The collection invariant: ids below the counter, every document well
      formed, codes unique. */
  ghost predicate TableOk(m: map<EventId, Event>, bound: nat) {
    && (forall id :: id in m ==> id < bound)
    && (forall id :: id in m ==> WellFormed(m[id]))
    && CodesUnique(m)
  }

  // ---------------------------------------------------------------------
  // Queries
  // ---------------------------------------------------------------------

  /** The documents with id below `bound`, in ascending id order. */
  function Scan(m: map<EventId, Event>, bound: nat): (r: seq<Doc>)
    ensures forall i :: 0 <= i < |r| ==> r[i].id < bound && r[i].id in m && m[r[i].id] == r[i].event
    ensures forall i, j :: 0 <= i < j < |r| ==> r[i].id < r[j].id
  {
    if bound == 0 then []
    else
      var prev := Scan(m, bound - 1);
      if bound - 1 in m then prev + [Doc(bound - 1, m[bound - 1])] else prev
  }

  /** The scan misses no document below the bound. */
  lemma {:induction false} ScanComplete(m: map<EventId, Event>, bound: nat, id: EventId)
    requires id in m && id < bound
    ensures Doc(id, m[id]) in Scan(m, bound)
  {
    if id < bound - 1 {
      ScanComplete(m, bound - 1, id);
    }
  }

  /** A document is listed by the scan exactly when it is stored below the bound. */
  lemma ScanMembers(m: map<EventId, Event>, bound: nat, d: Doc)
    ensures d in Scan(m, bound) <==> d.id in m && d.id < bound && m[d.id] == d.event
  {
    if d.id in m && d.id < bound && m[d.id] == d.event {
      ScanComplete(m, bound, d.id);
    }
  }

  /** The ids in `m` below `bound`. */
  function IdsBelow(m: map<EventId, Event>, bound: nat): set<EventId> {
    set id | id in m && id < bound
  }

  /** The scan lists each id below the bound exactly once. */
  lemma {:induction false} ScanLength(m: map<EventId, Event>, bound: nat)
    ensures |Scan(m, bound)| == |IdsBelow(m, bound)|
  {
    if bound == 0 {
      assert IdsBelow(m, bound) == {};
    } else {
      var k := bound - 1;
      ScanLength(m, k);
      if k in m {
        calc {
          |Scan(m, bound)|;
        ==  { assert Scan(m, bound) == Scan(m, k) + [Doc(k, m[k])]; }
          |Scan(m, k)| + 1;
        ==  { assert IdsBelow(m, bound) == IdsBelow(m, k) + {k} && k !in IdsBelow(m, k); }
          |IdsBelow(m, bound)|;
        }
      } else {
        assert Scan(m, bound) == Scan(m, k) && IdsBelow(m, bound) == IdsBelow(m, k);
      }
    }
  }

  predicate SortedByDate(s: seq<Doc>) {
    forall i, j :: 0 <= i < j < |s| ==> s[i].event.date <= s[j].event.date
  }

  /** Inserts `d` before the first document that is not earlier than it. */
  function InsertByDate(d: Doc, s: seq<Doc>): (r: seq<Doc>)
    requires SortedByDate(s)
    ensures SortedByDate(r)
    ensures multiset(r) == multiset(s) + multiset{d}
  {
    if s == [] || d.event.date <= s[0].event.date then [d] + s
    else
      var rest := InsertByDate(d, s[1..]);
      assert s == [s[0]] + s[1..];
      FirstBeforeRest(s[0], d, s[1..], rest);
      [s[0]] + rest
  }

  /** A document no later than `d` and than every document of `s` stays in
      front when `d` is inserted into `s`. */
  lemma FirstBeforeRest(first: Doc, d: Doc, s: seq<Doc>, rest: seq<Doc>)
    requires first.event.date <= d.event.date
    requires forall k :: 0 <= k < |s| ==> first.event.date <= s[k].event.date
    requires SortedByDate(rest) && multiset(rest) == multiset(s) + multiset{d}
    ensures SortedByDate([first] + rest)
  {
    forall k | 0 <= k < |rest| ensures first.event.date <= rest[k].event.date {
      assert rest[k] in multiset(rest);
      if rest[k] != d {
        assert rest[k] in multiset(s);
      }
    }
  }

  /** `.sort({ date: 1 })`: a stable insertion sort, ascending by date. */
  function SortByDate(s: seq<Doc>): (r: seq<Doc>)
    ensures SortedByDate(r)
    ensures multiset(r) == multiset(s)
  {
    if s == [] then []
    else
      assert s == [s[0]] + s[1..];
      InsertByDate(s[0], SortByDate(s[1..]))
  }

  /** GET /events: every event, ascending by date. */
  function ListAll(m: map<EventId, Event>, bound: nat): (r: seq<Doc>)
    ensures SortedByDate(r)
    ensures multiset(r) == multiset(Scan(m, bound))
    ensures forall d :: d in r <==> d.id in m && d.id < bound && m[d.id] == d.event
  {
    var s := Scan(m, bound);
    var r := SortByDate(s);
    assert forall d :: d in r <==> d.id in m && d.id < bound && m[d.id] == d.event by {
      forall d ensures d in r <==> d.id in m && d.id < bound && m[d.id] == d.event {
        assert d in r <==> d in multiset(r);
        ScanMembers(m, bound, d);
      }
    }
    r
  }

  /** The listing holds as many documents as the collection: each once. */
  lemma ListAllLength(m: map<EventId, Event>, bound: nat)
    requires TableOk(m, bound)
    ensures |ListAll(m, bound)| == |m|
  {
    ScanLength(m, bound);
    assert IdsBelow(m, bound) == m.Keys;
    assert |ListAll(m, bound)| == |multiset(ListAll(m, bound))| == |Scan(m, bound)|;
  }

  /** The documents of `s` owned by `owner`, in their order. */
  function OwnedBy(s: seq<Doc>, owner: UserId): (r: seq<Doc>)
    ensures forall d :: d in r <==> d in s && d.event.user == owner
    ensures forall d :: multiset(r)[d] == if d.event.user == owner then multiset(s)[d] else 0
  {
    if s == [] then []
    else
      assert s == [s[0]] + s[1..];
      if s[0].event.user == owner then [s[0]] + OwnedBy(s[1..], owner)
    else OwnedBy(s[1..], owner)
  }

  /** GET /events/user/:userid: exactly the events `owner` created, ascending by date. */
  function ListByOwner(m: map<EventId, Event>, bound: nat, owner: UserId): (r: seq<Doc>)
    ensures SortedByDate(r)
    ensures multiset(r) == multiset(OwnedBy(Scan(m, bound), owner))
    ensures forall d :: d in r <==> d.id in m && d.id < bound && m[d.id] == d.event && d.event.user == owner
  {
    var s := OwnedBy(Scan(m, bound), owner);
    var r := SortByDate(s);
    assert forall d :: d in r <==> d.id in m && d.id < bound && m[d.id] == d.event && d.event.user == owner by {
      forall d ensures d in r <==> d.id in m && d.id < bound && m[d.id] == d.event && d.event.user == owner {
        assert d in r <==> d in multiset(r);
        ScanMembers(m, bound, d);
      }
    }
    r
  }

  /** A sequence of documents with strictly ascending ids holds each document
      at most once. */
  lemma {:induction false} AscendingIdsOnce(s: seq<Doc>, d: Doc)
    requires forall i, j :: 0 <= i < j < |s| ==> s[i].id < s[j].id
    ensures multiset(s)[d] <= 1
  {
    if s != [] {
      assert s == [s[0]] + s[1..];
      AscendingIdsOnce(s[1..], d);
      if d == s[0] {
        assert d !in s[1..];
      }
    }
  }

  /** The owner's listing holds each of the owner's events exactly once, and
      nothing else. */
  lemma ListByOwnerOnce(m: map<EventId, Event>, bound: nat, owner: UserId, d: Doc)
    ensures multiset(ListByOwner(m, bound, owner))[d]
            == if d.id in m && d.id < bound && m[d.id] == d.event && d.event.user == owner then 1 else 0
  {
    AscendingIdsOnce(Scan(m, bound), d);
    ScanMembers(m, bound, d);
  }

  /** GET /events/:id. */
  function GetById(m: map<EventId, Event>, id: EventId): (r: Option<Doc>)
    ensures r.Some? <==> id in m
    ensures r.Some? ==> r.value.id == id && r.value.event == m[id]
  {
    if id in m then Some(Doc(id, m[id])) else None
  }

  /** The first document of `s` with this code. */
  function FirstWithCode(s: seq<Doc>, code: string): (r: Option<Doc>)
    ensures r.Some? ==> r.value in s && r.value.event.code == code
    ensures r.Some? ==> exists k :: 0 <= k < |s| && s[k] == r.value
                          && forall i :: 0 <= i < k ==> s[i].event.code != code
    ensures r.None? <==> forall i :: 0 <= i < |s| ==> s[i].event.code != code
  {
    if s == [] then None
    else if s[0].event.code == code then Some(s[0])
    else FirstWithCode(s[1..], code)
  }

  /** GET /event/code/:code: `findOne({ code })` in collection order. */
  function GetByCode(m: map<EventId, Event>, bound: nat, code: string): (r: Option<Doc>)
    ensures r.Some? ==> r.value.id in m && m[r.value.id] == r.value.event && r.value.event.code == code
    ensures r.None? <==> forall id :: id in m && id < bound ==> m[id].code != code
  {
    var s := Scan(m, bound);
    var r := FirstWithCode(s, code);
    assert r.None? ==> forall id :: id in m && id < bound ==> m[id].code != code by {
      if r.None? {
        forall id | id in m && id < bound ensures m[id].code != code {
          ScanComplete(m, bound, id);
        }
      }
    }
    r
  }

  /** Codes are unique, so the code of a stored event finds that event. */
  lemma GetByCodeFindsOwner(m: map<EventId, Event>, bound: nat, id: EventId)
    requires TableOk(m, bound) && id in m
    ensures GetByCode(m, bound, m[id].code) == Some(Doc(id, m[id]))
  {
    var r := GetByCode(m, bound, m[id].code);
    assert r.Some?;
  }

  /** A cleared date input arrives as `''`, which Mongoose casts to `null`;
      the required validator of the date path refuses it. */
  lemma ClearedDateIsRefused(b: UpdateBody, file: Option<string>, now: int)
    requires b.date == Some(NullDate)
    ensures DatePath in UpdateViolations(ApplySetters(UpdateDraft(b, file)), now)
  {
    var c := ApplySetters(UpdateDraft(b, file));
    assert Provides(c, DatePath) && !PathOk(DatePath, c, now);
  }

  /** Storing a well-formed event with an unused code under the fresh id
      keeps the collection invariant. */
  lemma InsertKeepsTableOk(m: map<EventId, Event>, bound: nat, e: Event)
    requires TableOk(m, bound) && WellFormed(e) && !CodeTaken(m, e.code)
    ensures bound !in m
    ensures TableOk(m[bound := e], bound + 1)
  {
    var m' := m[bound := e];
    assert CodesUnique(m') by {
      forall i, j | i in m' && j in m' && i != j ensures m'[i].code != m'[j].code {
        if i == bound { assert j in m; } else if j == bound { assert i in m; }
      }
    }
  }

  /** Replacing a stored event by a well-formed one with the same code keeps
      the collection invariant. */
  lemma ReplaceKeepsTableOk(m: map<EventId, Event>, bound: nat, id: EventId, e: Event)
    requires TableOk(m, bound) && id in m && WellFormed(e) && e.code == m[id].code
    ensures TableOk(m[id := e], bound)
  {
    var m' := m[id := e];
    assert CodesUnique(m') by {
      forall i, j | i in m' && j in m' && i != j ensures m'[i].code != m'[j].code {
        assert m'[i].code == m[i].code && m'[j].code == m[j].code;
      }
    }
  }

  /** Removing a document keeps the collection invariant. */
  lemma RemoveKeepsTableOk(m: map<EventId, Event>, bound: nat, id: EventId)
    requires TableOk(m, bound)
    ensures TableOk(m - {id}, bound)
  {
  }

  /** After a create stored `e` under the fresh id, both lookups return it. */
  lemma LookupsAfterCreate(m: map<EventId, Event>, bound: nat, e: Event)
    requires TableOk(m, bound) && WellFormed(e) && !CodeTaken(m, e.code)
    ensures GetById(m[bound := e], bound) == Some(Doc(bound, e))
    ensures GetByCode(m[bound := e], bound + 1, e.code) == Some(Doc(bound, e))
  {
    InsertKeepsTableOk(m, bound, e);
    GetByCodeFindsOwner(m[bound := e], bound + 1, bound);
  }

  /** An 8-character code that passes validation is stored as given, since
      trimming could only have shortened it: so the duplicate check on the
      request's code is a check on the stored code. */
  lemma SavedCodeAsGiven(b: CreateBody, filename: string, now: int)
    requires b.code.Some? && |b.code.value| == CodeLength
    requires Validate(NewEventDraft(b, filename), now).Valid?
    ensures Validate(NewEventDraft(b, filename), now).event.code == b.code.value
  {
    ValidateStores(NewEventDraft(b, filename), now);
  }

  // ---------------------------------------------------------------------
  // The collection and the handlers that change it
  // ---------------------------------------------------------------------

  class EventStore {
    var events: map<EventId, Event>
    /** The next fresh document id. */
    var nextId: nat

    ghost predicate Valid()
      reads this
    {
      TableOk(events, nextId)
    }

    constructor ()
      ensures Valid() && events == map[] && nextId == 0
    {
      events := map[];
      nextId := 0;
    }

    /** POST /event: the checks in order, then `save`. */
    method Create(body: CreateBody, file: Option<string>, now: int) returns (st: Status, saved: Option<Doc>)
      requires Valid()
      modifies this
      ensures Valid()
      ensures st.Created? <==> saved.Some?
      ensures !st.Created? ==> events == old(events) && nextId == old(nextId)
      ensures !HasRequiredFields(body) ==> st == BadRequest(MsgMissingFields)
      ensures HasRequiredFields(body) && file.None? ==> st == BadRequest(MsgImageRequired)
      ensures HasRequiredFields(body) && file.Some? && |body.code.value| != CodeLength
              ==> st == BadRequest(MsgCodeLength)
      ensures HasRequiredFields(body) && file.Some? && |body.code.value| == CodeLength
              && CodeTaken(old(events), body.code.value)
              ==> st == BadRequest(MsgCodeExists)
      ensures HasRequiredFields(body) && file.Some? && |body.code.value| == CodeLength
              && !CodeTaken(old(events), body.code.value)
              ==> match Validate(NewEventDraft(body, file.value), now)
                  case Invalid(paths) => st == Forwarded(paths)
                  case Valid(e) =>
                    && st == Created(MsgCreated)
                    && saved == Some(Doc(old(nextId), e))
                    && old(nextId) !in old(events)
                    && events == old(events)[old(nextId) := e]
                    && nextId == old(nextId) + 1
    {
      saved := None;
      if !HasRequiredFields(body) {
        return BadRequest(MsgMissingFields), saved;
      }
      if file.None? {
        return BadRequest(MsgImageRequired), saved;
      }
      var code := body.code.value;
      if |code| != CodeLength {
        return BadRequest(MsgCodeLength), saved;
      }
      if CodeTaken(events, code) {
        return BadRequest(MsgCodeExists), saved;
      }
      var result := Validate(NewEventDraft(body, file.value), now);
      match result
      case Invalid(paths) =>
        st := Forwarded(paths);
      case Valid(e) =>
        SavedCodeAsGiven(body, file.value, now);
        var id := Insert(e);
        saved := Some(Doc(id, e));
        st := Created(MsgCreated);
    }

    /** Stores a validated event with an unused code under a fresh id. */
    method Insert(e: Event) returns (id: EventId)
      requires Valid() && WellFormed(e) && !CodeTaken(events, e.code)
      modifies this
      ensures Valid()
      ensures id == old(nextId) && id !in old(events)
      ensures events == old(events)[id := e] && nextId == old(nextId) + 1
    {
      InsertKeepsTableOk(events, nextId, e);
      id := nextId;
      events := events[id := e];
      nextId := nextId + 1;
    }

    /** PUT /event/:id: `findByIdAndUpdate` with `runValidators`. The update
        validators run on the paths the update sets, before the lookup. */
    method Update(id: EventId, body: UpdateBody, file: Option<string>, now: int)
      returns (st: Status, updated: Option<Doc>)
      requires Valid()
      modifies this
      ensures Valid()
      ensures nextId == old(nextId)
      ensures st.Ok? <==> updated.Some?
      ensures !st.Ok? ==> events == old(events)
      ensures body.date == Some(NullDate) ==> st.Forwarded? && DatePath in st.paths
      ensures var bad := UpdateViolations(ApplySetters(UpdateDraft(body, file)), now);
              && (bad != {} ==> st == Forwarded(bad))
              && (bad == {} && id !in old(events) ==> st == NotFound(MsgNotFound))
              && (bad == {} && id in old(events) ==>
                    && st == Ok(MsgUpdated)
                    && events == old(events)[id := Updated(old(events)[id], body, file)]
                    && updated == Some(Doc(id, Updated(old(events)[id], body, file))))
    {
      updated := None;
      if body.date == Some(NullDate) {
        ClearedDateIsRefused(body, file, now);
      }
      var c := ApplySetters(UpdateDraft(body, file));
      var bad := UpdateViolations(c, now);
      if bad != {} {
        return Forwarded(bad), updated;
      }
      if id !in events {
        return NotFound(MsgNotFound), updated;
      }
      var e := Updated(events[id], body, file);
      UpdateKeepsWellFormed(events[id], UpdateDraft(body, file), now);
      ReplaceKeepsTableOk(events, nextId, id, e);
      events := events[id := e];
      updated := Some(Doc(id, e));
      st := Ok(MsgUpdated);
    }

    /** DELETE /event/:id: `findByIdAndDelete`. */
    method Delete(id: EventId) returns (st: Status, deleted: Option<Event>)
      requires Valid()
      modifies this
      ensures Valid()
      ensures nextId == old(nextId)
      ensures id !in old(events) ==> st == NotFound(MsgNotFound) && deleted == None && events == old(events)
      ensures id in old(events) ==>
                && st == Ok(MsgDeleted)
                && deleted == Some(old(events)[id])
                && events == old(events) - {id}
    {
      if id !in events {
        return NotFound(MsgNotFound), None;
      }
      deleted := Some(events[id]);
      RemoveKeepsTableOk(events, nextId, id);
      events := events - {id};
      st := Ok(MsgDeleted);
    }
  }
}

=== FILE: event_schema.dfy ===
/**
 * The Mongoose schema of an Event document: which fields it has, how the
 * string fields are normalised by the `trim` setter, which defaults apply,
 * and which validators a document must pass before it is stored.
 *
 * Dates are integer timestamps and the validator's `new Date()` is the
 * parameter `now`.
 */
module EventSchema {
  import opened Wrappers

  type UserId = nat

  const MaxNameLength: nat := 100
  const CodeLength: nat := 8
  const MaxLocationLength: nat := 200
  const MaxDescriptionLength: nat := 1000

  /** The closed enumeration of event categories. */
  const Categories: seq<string> := ["Food Donation", "Tree Planting", "Cleaning"]

  // ---------------------------------------------------------------------
  // The `trim` setter (JavaScript's String.prototype.trim)
  // ---------------------------------------------------------------------

  /** The characters String.prototype.trim removes: ECMAScript WhiteSpace
      and LineTerminator. */
  predicate IsSpace(c: char) {
    || c == '\t' || c == '\n' || c == '\U{000B}' || c == '\U{000C}' || c == '\r'
    || c == ' ' || c == '\U{00A0}' || c == '\U{1680}'
    || ('\U{2000}' <= c <= '\U{200A}')
    || c == '\U{2028}' || c == '\U{2029}' || c == '\U{202F}' || c == '\U{205F}'
    || c == '\U{3000}' || c == '\U{FEFF}'
  }

  /** A string with no white space at either end. */
  predicate Trimmed(s: string) {
    s == [] || (!IsSpace(s[0]) && !IsSpace(s[|s| - 1]))
  }

  /** `s` without its leading white space: a suffix of `s`. */
  function TrimStart(s: string): (r: string)
    ensures |r| <= |s| && r == s[|s| - |r|..]
    ensures r == [] || !IsSpace(r[0])
    ensures forall i :: 0 <= i < |s| - |r| ==> IsSpace(s[i])
  {
    if s != [] && IsSpace(s[0]) then TrimStart(s[1..]) else s
  }

  /** `s` without its trailing white space: a prefix of `s`. */
  function TrimEnd(s: string): (r: string)
    ensures |r| <= |s| && r == s[..|r|]
    ensures r == [] || !IsSpace(r[|r| - 1])
    ensures forall i :: |r| <= i < |s| ==> IsSpace(s[i])
  {
    if s != [] && IsSpace(s[|s| - 1]) then TrimEnd(s[..|s| - 1]) else s
  }

  /** String.prototype.trim. */
  function Trim(s: string): (r: string)
    ensures Trimmed(r)
    ensures |r| <= |s|
    ensures |r| == |s| ==> r == s
  {
    var t := TrimStart(s);
    var r := TrimEnd(t);
    assert r == [] ==> Trimmed(r);
    assert r != [] ==> r[0] == t[0];
    r
  }

  /** Trimming removes white space at the two ends of `s` and nothing else:
      the result is a contiguous slice of `s`, and every character outside
      that slice is white space. */
  lemma TrimRemovesOnlyEnds(s: string)
    ensures exists i, j :: 0 <= i <= j <= |s| && Trim(s) == s[i..j]
              && forall k :: 0 <= k < i || j <= k < |s| ==> IsSpace(s[k])
  {
    var t := TrimStart(s);
    var r := TrimEnd(t);
    var i := |s| - |t|;
    var j := i + |r|;
    assert Trim(s) == s[i..j] by {
      assert t == s[i..] && r == t[..|r|];
    }
    forall k | 0 <= k < i || j <= k < |s| ensures IsSpace(s[k]) {
      if j <= k {
        assert s[k] == t[k - i];
      }
    }
  }

  /** Trimming leaves a string that has no white space at its ends as it is. */
  lemma {:induction false} TrimKeepsTrimmed(s: string)
    requires Trimmed(s)
    ensures Trim(s) == s
  {
    assert TrimStart(s) == s;
    assert TrimEnd(s) == s;
  }

  /** The `trim` setter is idempotent. */
  lemma TrimIdempotent(s: string)
    ensures Trim(Trim(s)) == Trim(s)
  {
    TrimKeepsTrimmed(Trim(s));
  }

  // ---------------------------------------------------------------------
  // Documents
  // ---------------------------------------------------------------------

  /** A stored event document (`_id` and the timestamps are kept by the store). */
  datatype Event = Event(
    name: string,
    code: string,
    date: int,
    location: string,
    description: string,
    category: string,
    image: string,
    user: UserId)

  /** The plain object handed to Mongoose, by `new Event({...})` on create or
      as the update document of `findByIdAndUpdate`: a field may be absent. */
  datatype Draft = Draft(
    name: Option<string>,
    code: Option<string>,
    date: Option<DateValue>,
    location: Option<string>,
    description: Option<string>,
    category: Option<string>,
    image: Option<string>,
    user: Option<UserId>)

  /** The value of the date path after casting: a timestamp, or `null`, which
      is what Mongoose casts an empty string to. */
  datatype DateValue = NullDate | At(time: int)

  /** The schema paths that carry validators. */
  datatype Path = NamePath | CodePath | DatePath | LocationPath | DescriptionPath | CategoryPath | UserPath

  function TrimField(f: Option<string>): Option<string> {
    match f
    case None => None
    case Some(s) => Some(Trim(s))
  }

  /** Casting applies the `trim` setter of name, code, location and description. */
  function ApplySetters(d: Draft): (c: Draft)
    ensures c.date == d.date && c.category == d.category && c.image == d.image && c.user == d.user
    ensures c.name.Some? == d.name.Some? && (d.name.Some? ==> c.name.value == Trim(d.name.value))
    ensures c.code.Some? == d.code.Some? && (d.code.Some? ==> c.code.value == Trim(d.code.value))
    ensures c.location.Some? == d.location.Some?
            && (d.location.Some? ==> c.location.value == Trim(d.location.value))
    ensures c.description.Some? == d.description.Some?
            && (d.description.Some? ==> c.description.value == Trim(d.description.value))
  {
    d.(name := TrimField(d.name), code := TrimField(d.code), location := TrimField(d.location),
       description := TrimField(d.description))
  }

  /** A new document takes the defaults of description and image (both ''). */
  function ApplyDefaults(d: Draft): (c: Draft)
    ensures c.description.Some? && c.image.Some?
    ensures d.description.Some? ==> c.description == d.description
    ensures d.description.None? ==> c.description == Some("")
    ensures d.image.Some? ==> c.image == d.image
    ensures d.image.None? ==> c.image == Some("")
    ensures c.name == d.name && c.code == d.code && c.date == d.date && c.location == d.location
    ensures c.category == d.category && c.user == d.user
  {
    d.(description := Some(d.description.GetOr("")), image := Some(d.image.GetOr("")))
  }

  /** A string that is present and not empty: Mongoose's `required` check on
      a string path, and also JavaScript truthiness of a request field. */
  predicate RequiredString(f: Option<string>) {
    f.Some? && f.value != ""
  }

  /** Whether the (already cast) value of path `p` in `c` passes that path's
      validators; `now` is the time the date validator compares against. */
  predicate PathOk(p: Path, c: Draft, now: int) {
    match p
    case NamePath => RequiredString(c.name) && |c.name.value| <= MaxNameLength
    case CodePath =>
      RequiredString(c.code) && CodeLength <= |c.code.value| && |c.code.value| <= CodeLength
    case DatePath => c.date.Some? && c.date.value.At? && c.date.value.time >= now
    case LocationPath => RequiredString(c.location) && |c.location.value| <= MaxLocationLength
    case DescriptionPath => c.description.None? || |c.description.value| <= MaxDescriptionLength
    case CategoryPath => RequiredString(c.category) && c.category.value in Categories
    case UserPath => c.user.Some?
  }

  /** The paths of a new document that fail validation (a ValidationError
      lists one error per such path). */
  function Violations(c: Draft, now: int): (r: set<Path>)
    ensures forall p :: p in r <==> !PathOk(p, c, now)
  {
    Check(NamePath, c, now) + Check(CodePath, c, now) + Check(DatePath, c, now)
    + Check(LocationPath, c, now) + Check(DescriptionPath, c, now)
    + Check(CategoryPath, c, now) + Check(UserPath, c, now)
  }

  function Check(p: Path, c: Draft, now: int): set<Path> {
    if PathOk(p, c, now) then {} else {p}
  }

  /** Whether the update document sets path `p`. */
  predicate Provides(d: Draft, p: Path) {
    match p
    case NamePath => d.name.Some?
    case CodePath => d.code.Some?
    case DatePath => d.date.Some?
    case LocationPath => d.location.Some?
    case DescriptionPath => d.description.Some?
    case CategoryPath => d.category.Some?
    case UserPath => d.user.Some?
  }

  /** Update validators run only on the paths the update sets. */
  function UpdateViolations(c: Draft, now: int): (r: set<Path>)
    ensures forall p :: p in r <==> Provides(c, p) && !PathOk(p, c, now)
  {
    set p | p in Violations(c, now) && Provides(c, p)
  }

  /** The constraints every stored event satisfies at any time: trimmed string
      fields, the length bounds and the category enumeration. */
  predicate WellFormed(e: Event) {
    && Trimmed(e.name) && 0 < |e.name| <= MaxNameLength
    && Trimmed(e.code) && |e.code| == CodeLength
    && Trimmed(e.location) && 0 < |e.location| <= MaxLocationLength
    && Trimmed(e.description) && |e.description| <= MaxDescriptionLength
    && e.category in Categories
  }

  /** An event the schema accepts when it is saved at time `now`. */
  predicate ValidEvent(e: Event, now: int) {
    WellFormed(e) && e.date >= now
  }

  /** The draft that lists every field of `e`. */
  function ToDraft(e: Event): (d: Draft)
    ensures d.name == Some(e.name) && d.code == Some(e.code) && d.date == Some(At(e.date))
    ensures d.location == Some(e.location) && d.description == Some(e.description)
    ensures d.category == Some(e.category) && d.image == Some(e.image) && d.user == Some(e.user)
  {
    Draft(Some(e.name), Some(e.code), Some(At(e.date)), Some(e.location), Some(e.description),
          Some(e.category), Some(e.image), Some(e.user))
  }

  /** Saving a new document at time `now`: setters and defaults, then every
      validator; either the stored event or the failing paths. */
  function Validate(d: Draft, now: int): (r: Result)
    ensures r.Invalid? <==> Violations(ApplyDefaults(ApplySetters(d)), now) != {}
    ensures r.Invalid? ==> r.paths == Violations(ApplyDefaults(ApplySetters(d)), now)
    ensures r.Valid? ==> ValidEvent(r.event, now)
  {
    var c := ApplyDefaults(ApplySetters(d));
    var bad := Violations(c, now);
    if bad != {} then Invalid(bad)
    else
      assert PathOk(NamePath, c, now) && PathOk(CodePath, c, now) && PathOk(DatePath, c, now)
          && PathOk(LocationPath, c, now) && PathOk(DescriptionPath, c, now)
          && PathOk(CategoryPath, c, now) && PathOk(UserPath, c, now);
      Valid(Event(c.name.value, c.code.value, c.date.value.time, c.location.value,
                  c.description.value, c.category.value, c.image.value, c.user.value))
  }

  /** What saving stores: the trimmed strings, the defaults of the absent
      description and image, and the other fields as given. */
  lemma ValidateStores(d: Draft, now: int)
    requires Validate(d, now).Valid?
    ensures var e := Validate(d, now).event;
            && d.date == Some(At(e.date)) && d.user == Some(e.user) && d.category == Some(e.category)
            && d.name.Some? && e.name == Trim(d.name.value)
            && d.code.Some? && e.code == Trim(d.code.value)
            && d.location.Some? && e.location == Trim(d.location.value)
            && e.description == Trim(d.description.GetOr(""))
            && e.image == d.image.GetOr("")
  {
    var c := ApplyDefaults(ApplySetters(d));
    assert Violations(c, now) == {};
    assert PathOk(NamePath, c, now) && PathOk(CodePath, c, now) && PathOk(DatePath, c, now)
        && PathOk(LocationPath, c, now) && PathOk(CategoryPath, c, now) && PathOk(UserPath, c, now);
    assert Validate(d, now).event == Event(c.name.value, c.code.value, c.date.value.time,
      c.location.value, c.description.value, c.category.value, c.image.value, c.user.value);
    assert d.description.Some? ==> c.description.value == Trim(d.description.value);
  }

  datatype Result = Valid(event: Event) | Invalid(paths: set<Path>)

  /** Every event the schema would accept is what saving its own fields
      stores: validation of a valid event is the identity. */
  lemma {:induction false} ValidateAcceptsValid(e: Event, now: int)
    requires ValidEvent(e, now)
    ensures Validate(ToDraft(e), now) == Valid(e)
  {
    var d := ToDraft(e);
    assert Violations(d, now) == {} by {
      assert PathOk(NamePath, d, now) && PathOk(CodePath, d, now) && PathOk(DatePath, d, now);
      assert PathOk(LocationPath, d, now) && PathOk(DescriptionPath, d, now);
      assert PathOk(CategoryPath, d, now) && PathOk(UserPath, d, now);
    }
    CastKeepsWellFormed(e);
  }

  /** The setters and defaults leave the fields of a well-formed event as they are. */
  lemma {:induction false} CastKeepsWellFormed(e: Event)
    requires WellFormed(e)
    ensures ApplyDefaults(ApplySetters(ToDraft(e))) == ToDraft(e)
  {
    TrimKeepsTrimmed(e.name);
    TrimKeepsTrimmed(e.code);
    TrimKeepsTrimmed(e.location);
    TrimKeepsTrimmed(e.description);
  }

  /** A draft that lacks a required field, or whose date is null, is never stored. */
  lemma MissingRequiredIsInvalid(d: Draft, now: int)
    requires d.name.None? || d.code.None? || d.date.None? || d.date == Some(NullDate) || d.location.None?
          || d.category.None? || d.user.None?
    ensures Validate(d, now).Invalid?
  {
    MissingRequiredFails(ApplyDefaults(ApplySetters(d)), now);
  }

  /** After casting, a missing required field or a null date is still missing
      or null, so its path fails. */
  lemma MissingRequiredFails(c: Draft, now: int)
    requires c.name.None? || c.code.None? || c.date.None? || c.date == Some(NullDate) || c.location.None?
          || c.category.None? || c.user.None?
    ensures Violations(c, now) != {}
  {
    if c.name.None? {
      assert NamePath in Violations(c, now);
    } else if c.code.None? {
      assert CodePath in Violations(c, now);
    } else if c.location.None? {
      assert LocationPath in Violations(c, now);
    } else if c.category.None? {
      assert CategoryPath in Violations(c, now);
    } else if c.user.None? {
      assert UserPath in Violations(c, now);
    } else {
      assert DatePath in Violations(c, now);
    }
  }

  /** A date before `now` is refused by the date validator. */
  lemma PastDateIsInvalid(d: Draft, now: int)
    requires d.date.Some? && d.date.value.At? && d.date.value.time < now
    ensures Validate(d, now).Invalid?
    ensures DatePath in Validate(d, now).paths
  {
    assert DatePath in Violations(ApplyDefaults(ApplySetters(d)), now);
  }

  /** A category outside the enumeration is refused. */
  lemma UnknownCategoryIsInvalid(d: Draft, now: int)
    requires d.category.Some? && d.category.value !in Categories
    ensures Validate(d, now).Invalid?
    ensures CategoryPath in Validate(d, now).paths
  {
    assert CategoryPath in Violations(ApplyDefaults(ApplySetters(d)), now);
  }

  /** Applying an update document: every field it sets is replaced. */
  function Apply(e: Event, c: Draft): Event {
    Event(c.name.GetOr(e.name), c.code.GetOr(e.code),
          if c.date.Some? && c.date.value.At? then c.date.value.time else e.date,
          c.location.GetOr(e.location), c.description.GetOr(e.description),
          c.category.GetOr(e.category), c.image.GetOr(e.image), c.user.GetOr(e.user))
  }

  /** An update whose set paths pass their validators keeps a stored event
      well formed (the update document has been through the setters). */
  lemma {:induction false} UpdateKeepsWellFormed(e: Event, d: Draft, now: int)
    requires WellFormed(e)
    requires UpdateViolations(ApplySetters(d), now) == {}
    ensures WellFormed(Apply(e, ApplySetters(d)))
  {
    var c := ApplySetters(d);
    var r := Apply(e, c);
    assert Trimmed(r.name) && 0 < |r.name| <= MaxNameLength by {
      if c.name.Some? { assert NamePath !in UpdateViolations(c, now); }
    }
    assert Trimmed(r.code) && |r.code| == CodeLength by {
      if c.code.Some? { assert CodePath !in UpdateViolations(c, now); }
    }
    assert Trimmed(r.location) && 0 < |r.location| <= MaxLocationLength by {
      if c.location.Some? { assert LocationPath !in UpdateViolations(c, now); }
    }
    assert Trimmed(r.description) && |r.description| <= MaxDescriptionLength by {
      if c.description.Some? { assert DescriptionPath !in UpdateViolations(c, now); }
    }
    assert r.category in Categories by {
      if c.category.Some? { assert CategoryPath !in UpdateViolations(c, now); }
    }
  }
}

=== FILE: http.dfy ===
/** The replies the route handlers send: an HTTP status with its message. */
module Http {
  import opened EventSchema

  datatype Status =
    | Ok(message: string)
    | Created(message: string)
    | BadRequest(message: string)
    | NotFound(message: string)
      /** A Mongoose ValidationError thrown by `save` or `findByIdAndUpdate`
          and handed to `next(error)`; it names the failing paths. */
    | Forwarded(paths: set<Path>)
  {
    /** The HTTP status code (a forwarded error gets Express's default 500). */
    function Code(): int {
      match this
      case Ok(_) => 200
      case Created(_) => 201
      case BadRequest(_) => 400
      case NotFound(_) => 404
      case Forwarded(_) => 500
    }
  }
}

=== FILE: join_routes.dfy ===
/**
 * The participation handlers: join, forfeit, the per-user listing and the
 * membership check, over the collection of join records.
 *
 * The collection is a sequence of records in insertion order. The user
 * directory is abstracted as the set of existing user ids, and the event
 * collection is the map the event handlers keep.
 */
module JoinRoutes {
  import opened Wrappers
  import opened EventSchema
  import opened Http
  import opened EventRoutes

  type JoinId = nat

  /** A participation record: `user` takes part in `event`. */
  datatype JoinRecord = JoinRecord(id: JoinId, user: UserId, event: EventId)

  /** An entry of the per-user listing, with its event populated (absent when
      the event has been deleted since). */
  datatype JoinedEntry = JoinedEntry(join: JoinRecord, event: Option<Event>)

  /** The state of one (user, event) pair. */
  datatype PairState = NotJoined | Joined

  const MsgIdsRequired: string := "User ID and Event ID are required"
  const MsgUserNotFound: string := "User not found"
  const MsgAlreadyJoined: string := "You have already joined this event"
  const MsgJoinCreated: string := "Successfully joined the event"
  const MsgNotJoinedYet: string := "You have not joined this event yet"
  const MsgForfeited: string := "Successfully forfeited from the event"

  predicate Matches(r: JoinRecord, user: UserId, event: EventId) {
    r.user == user && r.event == event
  }

  /** `findOne({ user, event })`: the position of the first record of the pair. */
  function FindJoin(js: seq<JoinRecord>, user: UserId, event: EventId): (r: Option<nat>)
    ensures r.Some? ==> r.value < |js| && Matches(js[r.value], user, event)
    ensures r.Some? ==> forall i :: 0 <= i < r.value ==> !Matches(js[i], user, event)
    ensures r.None? <==> forall i :: 0 <= i < |js| ==> !Matches(js[i], user, event)
  {
    if js == [] then None
    else if Matches(js[0], user, event) then Some(0)
    else
      match FindJoin(js[1..], user, event)
      case None => None
      case Some(k) => Some(k + 1)
  }

  /** GET /joined/:userId/:eventId: whether a record of the pair exists. */
  function IsJoined(js: seq<JoinRecord>, user: UserId, event: EventId): (r: bool)
    ensures r <==> exists i :: 0 <= i < |js| && Matches(js[i], user, event)
  {
    FindJoin(js, user, event).Some?
  }

  function StateOf(js: seq<JoinRecord>, user: UserId, event: EventId): PairState {
    if IsJoined(js, user, event) then Joined else NotJoined
  }

  /** At most one record exists for each (user, event) pair. */
  ghost predicate AtMostOnePerPair(js: seq<JoinRecord>) {
    forall i, j :: 0 <= i < j < |js| ==> !Matches(js[j], js[i].user, js[i].event)
  }

  /** `js` without its record at position `k`. */
  function RemoveAt(js: seq<JoinRecord>, k: nat): (r: seq<JoinRecord>)
    requires k < |js|
    ensures |r| == |js| - 1
    ensures forall i :: 0 <= i < k ==> r[i] == js[i]
    ensures forall i :: k <= i < |r| ==> r[i] == js[i + 1]
  {
    js[..k] + js[k + 1..]
  }

  /** Record ids ascend in collection order: each `save` takes a fresh, larger id. */
  predicate AscendingIds(js: seq<JoinRecord>) {
    forall i, j :: 0 <= i < j < |js| ==> js[i].id < js[j].id
  }

  /** `deleteOne({ _id: id })`: `js` without its records carrying `id`. */
  function RemoveById(js: seq<JoinRecord>, id: JoinId): (r: seq<JoinRecord>)
    ensures |r| <= |js|
  {
    if js == [] then []
    else if js[0].id == id then RemoveById(js[1..], id)
    else [js[0]] + RemoveById(js[1..], id)
  }

  /** Deleting by id drops every record carrying `id` and keeps every other
      record with its multiplicity. */
  lemma {:induction false} RemoveByIdCounts(js: seq<JoinRecord>, id: JoinId)
    ensures forall x :: multiset(RemoveById(js, id))[x] == if x.id == id then 0 else multiset(js)[x]
  {
    if js != [] {
      RemoveByIdCounts(js[1..], id);
      assert js == [js[0]] + js[1..];
    }
  }

  /** Deleting by id keeps no record whose id is not above a bound all
      records were above. */
  lemma {:induction false} RemoveByIdAbove(js: seq<JoinRecord>, id: JoinId, bound: JoinId)
    requires forall i :: 0 <= i < |js| ==> bound < js[i].id
    ensures forall i :: 0 <= i < |RemoveById(js, id)| ==> bound < RemoveById(js, id)[i].id
  {
    if js != [] {
      var tail := js[1..];
      forall i | 0 <= i < |tail| ensures bound < tail[i].id {
        assert tail[i] == js[i + 1];
      }
      RemoveByIdAbove(tail, id, bound);
    }
  }

  /** Deleting by id keeps the surviving records in collection order: under
      ascending ids, the result's ids still ascend. */
  lemma {:induction false} RemoveByIdKeepsAscending(js: seq<JoinRecord>, id: JoinId)
    requires AscendingIds(js)
    ensures AscendingIds(RemoveById(js, id))
  {
    if js != [] {
      var tail := js[1..];
      assert AscendingIds(tail) by {
        forall i, j | 0 <= i < j < |tail| ensures tail[i].id < tail[j].id {
          assert tail[i] == js[i + 1] && tail[j] == js[j + 1];
        }
      }
      RemoveByIdKeepsAscending(tail, id);
      if js[0].id != id {
        var rest := RemoveById(tail, id);
        forall i | 0 <= i < |tail| ensures js[0].id < tail[i].id {
          assert tail[i] == js[i + 1];
        }
        RemoveByIdAbove(tail, id, js[0].id);
        var s := [js[0]] + rest;
        assert RemoveById(js, id) == s;
        forall i, j | 0 <= i < j < |s| ensures s[i].id < s[j].id {
          assert s[j] == rest[j - 1];
          if i > 0 {
            assert s[i] == rest[i - 1];
          }
        }
      }
    }
  }

  /** Removing an id that no record carries changes nothing. */
  lemma {:induction false} RemoveByIdAbsent(js: seq<JoinRecord>, id: JoinId)
    requires forall i :: 0 <= i < |js| ==> js[i].id != id
    ensures RemoveById(js, id) == js
  {
    if js != [] {
      RemoveByIdAbsent(js[1..], id);
      assert js == [js[0]] + js[1..];
    }
  }

  /** No record other than the one at position `k` carries its id. */
  predicate IdUniqueAt(js: seq<JoinRecord>, k: nat)
    requires k < |js|
  {
    forall i :: 0 <= i < |js| && i != k ==> js[i].id != js[k].id
  }

  /** Ascending ids are unique. */
  lemma AscendingUnique(js: seq<JoinRecord>, k: nat)
    requires AscendingIds(js) && k < |js|
    ensures IdUniqueAt(js, k)
  {
  }

  /** When no other record shares its id, deleting the record at position
      `k` by its id removes exactly that record. */
  lemma {:induction false} RemoveByIdAt(js: seq<JoinRecord>, k: nat)
    requires k < |js| && IdUniqueAt(js, k)
    ensures RemoveById(js, js[k].id) == RemoveAt(js, k)
  {
    var id, tail := js[k].id, js[1..];
    if k == 0 {
      forall i | 0 <= i < |tail| ensures tail[i].id != id {
        assert tail[i] == js[i + 1];
      }
      RemoveByIdAbsent(tail, id);
      assert RemoveAt(js, 0) == tail;
    } else {
      forall i | 0 <= i < |tail| && i != k - 1 ensures tail[i].id != tail[k - 1].id {
        assert tail[i] == js[i + 1];
      }
      RemoveByIdAt(tail, k - 1);
      assert js[0].id != id;
      calc {
        RemoveById(js, id);
        [js[0]] + RemoveById(tail, id);
        [js[0]] + (tail[..k - 1] + tail[k..]);
        ([js[0]] + tail[..k - 1]) + tail[k..];
        { assert js[..k] == [js[0]] + tail[..k - 1] && js[k + 1..] == tail[k..]; }
        js[..k] + js[k + 1..];
      }
    }
  }

  /** Removing a record keeps the ids ascending. */
  lemma RemoveKeepsAscending(js: seq<JoinRecord>, k: nat)
    requires AscendingIds(js) && k < |js|
    ensures AscendingIds(RemoveAt(js, k))
  {
    var s := RemoveAt(js, k);
    forall i, j | 0 <= i < j < |s| ensures s[i].id < s[j].id {
      var i' := if i < k then i else i + 1;
      var j' := if j < k then j else j + 1;
      assert s[i] == js[i'] && s[j] == js[j'];
    }
  }

  /** A record for a pair not yet joined keeps the pairs unique. */
  lemma AppendKeepsAtMostOne(js: seq<JoinRecord>, r: JoinRecord)
    requires AtMostOnePerPair(js) && !IsJoined(js, r.user, r.event)
    ensures AtMostOnePerPair(js + [r])
  {
    var s := js + [r];
    forall i, j | 0 <= i < j < |s| ensures !Matches(s[j], s[i].user, s[i].event) {
      if j == |js| {
        assert s[i] == js[i];
      }
    }
  }

  /** Removing a record keeps the pairs unique. */
  lemma RemoveKeepsAtMostOne(js: seq<JoinRecord>, k: nat)
    requires AtMostOnePerPair(js) && k < |js|
    ensures AtMostOnePerPair(RemoveAt(js, k))
  {
    var s := RemoveAt(js, k);
    forall i, j | 0 <= i < j < |s| ensures !Matches(s[j], s[i].user, s[i].event) {
      var i' := if i < k then i else i + 1;
      var j' := if j < k then j else j + 1;
      assert s[i] == js[i'] && s[j] == js[j'];
    }
  }

  /** With unique pairs, removing the record of a pair leaves that pair not joined. */
  lemma RemoveClearsPair(js: seq<JoinRecord>, k: nat)
    requires AtMostOnePerPair(js) && k < |js|
    ensures !IsJoined(RemoveAt(js, k), js[k].user, js[k].event)
  {
    var s := RemoveAt(js, k);
    forall i | 0 <= i < |s| ensures !Matches(s[i], js[k].user, js[k].event) {
      if i < k {
        assert s[i] == js[i];
      } else {
        assert s[i] == js[i + 1];
      }
    }
  }

  /** Removing the record of one pair leaves every other pair's state alone. */
  lemma RemoveKeepsOtherPairs(js: seq<JoinRecord>, k: nat, user: UserId, event: EventId)
    requires k < |js| && !Matches(js[k], user, event)
    ensures IsJoined(RemoveAt(js, k), user, event) == IsJoined(js, user, event)
  {
    var s := RemoveAt(js, k);
    if IsJoined(js, user, event) {
      var i :| 0 <= i < |js| && Matches(js[i], user, event);
      if i < k {
        assert s[i] == js[i];
      } else {
        assert s[i - 1] == js[i];
      }
    }
    if IsJoined(s, user, event) {
      var i :| 0 <= i < |s| && Matches(s[i], user, event);
      if i < k {
        assert s[i] == js[i];
      } else {
        assert s[i] == js[i + 1];
      }
    }
  }

  /** Adding the record of one pair leaves every other pair's state alone. */
  lemma AppendKeepsOtherPairs(js: seq<JoinRecord>, r: JoinRecord, user: UserId, event: EventId)
    requires !Matches(r, user, event)
    ensures IsJoined(js + [r], user, event) == IsJoined(js, user, event)
  {
    var s := js + [r];
    if IsJoined(s, user, event) {
      var i :| 0 <= i < |s| && Matches(s[i], user, event);
      assert i < |js| && s[i] == js[i];
    }
    if IsJoined(js, user, event) {
      var i :| 0 <= i < |js| && Matches(js[i], user, event);
      assert s[i] == js[i];
    }
  }

  /** Forfeiting right after a successful join restores the relation. */
  lemma ForfeitUndoesJoin(js: seq<JoinRecord>, r: JoinRecord)
    requires !IsJoined(js, r.user, r.event)
    ensures FindJoin(js + [r], r.user, r.event) == Some(|js|)
    ensures RemoveAt(js + [r], |js|) == js
  {
    var s := js + [r];
    assert Matches(s[|js|], r.user, r.event);
    assert s[..|js|] == js && s[|js| + 1..] == [];
  }

  /** `find({ user })`: the records of `user`, in collection order. */
  function JoinedBy(js: seq<JoinRecord>, user: UserId): (r: seq<JoinRecord>)
    ensures forall x :: x in r <==> x in js && x.user == user
    ensures forall x :: multiset(r)[x] == if x.user == user then multiset(js)[x] else 0
    ensures |r| <= |js|
  {
    if js == [] then []
    else
      assert js == [js[0]] + js[1..];
      if js[0].user == user then [js[0]] + JoinedBy(js[1..], user)
    else JoinedBy(js[1..], user)
  }

  /** GET /joined/:userId: the user's records with their events populated. */
  function JoinedEvents(js: seq<JoinRecord>, events: map<EventId, Event>, user: UserId): (r: seq<JoinedEntry>)
    ensures |r| == |JoinedBy(js, user)|
    ensures forall i :: 0 <= i < |r| ==> r[i].join == JoinedBy(js, user)[i]
    ensures forall i :: 0 <= i < |r| ==> r[i].join in js && r[i].join.user == user
    ensures forall i :: 0 <= i < |r| ==>
              (r[i].event.Some? <==> r[i].join.event in events)
              && (r[i].event.Some? ==> r[i].event.value == events[r[i].join.event])
  {
    var mine := JoinedBy(js, user);
    seq(|mine|, i requires 0 <= i < |mine| =>
      JoinedEntry(mine[i], if mine[i].event in events then Some(events[mine[i].event]) else None))
  }

  /** Deleting an event does not cascade: the user's listing keeps its
      records, and the deleted event shows as absent. */
  lemma DeletedEventShowsAbsent(js: seq<JoinRecord>, events: map<EventId, Event>, user: UserId, gone: EventId)
    ensures var before := JoinedEvents(js, events, user);
            var after := JoinedEvents(js, events - {gone}, user);
            && |after| == |before|
            && (forall i :: 0 <= i < |after| ==> after[i].join == before[i].join)
            && (forall i :: 0 <= i < |after| && after[i].join.event == gone ==> after[i].event.None?)
  {
  }

  class JoinStore {
    var joins: seq<JoinRecord>
    /** The next fresh record id. */
    var nextId: nat

    ghost predicate Valid()
      reads this
    {
      && AtMostOnePerPair(joins)
      && AscendingIds(joins)
      && (forall i :: 0 <= i < |joins| ==> joins[i].id < nextId)
    }

    constructor ()
      ensures Valid() && joins == [] && nextId == 0
    {
      joins := [];
      nextId := 0;
    }

    /** POST /join-event: the checks in order, then `join.save()`. */
    method Join(userId: Option<UserId>, eventId: Option<EventId>, events: map<EventId, Event>, users: set<UserId>)
      returns (st: Status, join: Option<JoinRecord>)
      requires Valid()
      modifies this
      ensures Valid()
      ensures st.Created? <==> join.Some?
      ensures !st.Created? ==> joins == old(joins) && nextId == old(nextId)
      ensures userId.None? || eventId.None? ==> st == BadRequest(MsgIdsRequired)
      ensures userId.Some? && eventId.Some? ==>
                var user, event := userId.value, eventId.value;
                && (event !in events ==> st == NotFound(MsgNotFound))
                && (event in events && user !in users ==> st == NotFound(MsgUserNotFound))
                && (event in events && user in users && IsJoined(old(joins), user, event)
                    ==> st == BadRequest(MsgAlreadyJoined))
                && (event in events && user in users && !IsJoined(old(joins), user, event)
                    ==> && st == Created(MsgJoinCreated)
                        && join == Some(JoinRecord(old(nextId), user, event))
                        && joins == old(joins) + [join.value]
                        && nextId == old(nextId) + 1
                        && StateOf(joins, user, event) == Joined)
      ensures userId.Some? && eventId.Some? ==>
                forall u: UserId, e: EventId :: (u, e) != (userId.value, eventId.value)
                  ==> IsJoined(joins, u, e) == IsJoined(old(joins), u, e)
    {
      join := None;
      if userId.None? || eventId.None? {
        return BadRequest(MsgIdsRequired), join;
      }
      var user, event := userId.value, eventId.value;
      if event !in events {
        return NotFound(MsgNotFound), join;
      }
      if user !in users {
        return NotFound(MsgUserNotFound), join;
      }
      if IsJoined(joins, user, event) {
        return BadRequest(MsgAlreadyJoined), join;
      }
      var r := JoinRecord(nextId, user, event);
      AppendKeepsAtMostOne(joins, r);
      forall u: UserId, e: EventId | (u, e) != (user, event)
        ensures IsJoined(joins + [r], u, e) == IsJoined(joins, u, e)
      {
        AppendKeepsOtherPairs(joins, r, u, e);
      }
      joins := joins + [r];
      nextId := nextId + 1;
      assert Matches(joins[|joins| - 1], user, event);
      join := Some(r);
      st := Created(MsgJoinCreated);
    }

    /** DELETE /forfeit-event: find the pair's record, then `deleteOne` it. */
    method Forfeit(userId: Option<UserId>, eventId: Option<EventId>) returns (st: Status)
      requires Valid()
      modifies this
      ensures Valid()
      ensures nextId == old(nextId)
      ensures !st.Ok? ==> joins == old(joins)
      ensures userId.None? || eventId.None? ==> st == BadRequest(MsgIdsRequired)
      ensures userId.Some? && eventId.Some? ==>
                var user, event := userId.value, eventId.value;
                && (!IsJoined(old(joins), user, event) ==> st == NotFound(MsgNotJoinedYet))
                && (IsJoined(old(joins), user, event)
                    ==> var k := FindJoin(old(joins), user, event).value;
                        && st == Ok(MsgForfeited)
                        && joins == RemoveById(old(joins), old(joins)[k].id)
                        && joins == RemoveAt(old(joins), k)
                        && StateOf(joins, user, event) == NotJoined)
      ensures userId.Some? && eventId.Some? ==>
                forall u: UserId, e: EventId :: (u, e) != (userId.value, eventId.value)
                  ==> IsJoined(joins, u, e) == IsJoined(old(joins), u, e)
    {
      if userId.None? || eventId.None? {
        return BadRequest(MsgIdsRequired);
      }
      var user, event := userId.value, eventId.value;
      var found := FindJoin(joins, user, event);
      if found.None? {
        return NotFound(MsgNotJoinedYet);
      }
      var k := found.value;
      AscendingUnique(joins, k);
      RemoveByIdAt(joins, k);
      RemoveKeepsAscending(joins, k);
      RemoveKeepsAtMostOne(joins, k);
      RemoveClearsPair(joins, k);
      forall u: UserId, e: EventId | (u, e) != (user, event)
        ensures IsJoined(RemoveAt(joins, k), u, e) == IsJoined(joins, u, e)
      {
        RemoveKeepsOtherPairs(joins, k, u, e);
      }
      joins := RemoveById(joins, joins[k].id);
      st := Ok(MsgForfeited);
    }
  }
}

=== FILE: scenario.dfy ===
/**
 * A client of the two stores: an event is created and looked up, then a
 * participant joins it, is refused a second join and forfeits. The outcomes
 * follow from the handlers' contracts alone.
 */
module Scenario {
  import opened Wrappers
  import opened EventSchema
  import opened Http
  import opened EventRoutes
  import opened JoinRoutes

  /** The create request that lists every field of `e`. */
  function BodyOf(e: Event): CreateBody {
    CreateBody(Some(e.name), Some(e.code), Some(e.date), Some(e.location), Some(e.description),
               Some(e.category), Some(e.user))
  }

  lemma BodyOfValidEvent(e: Event, filename: string, now: int)
    requires ValidEvent(e, now) && e.image == ImagePath(filename)
    ensures HasRequiredFields(BodyOf(e)) && |e.code| == CodeLength
    ensures Validate(NewEventDraft(BodyOf(e), filename), now) == Valid(e)
  {
    var b := BodyOf(e);
    assert HasRequiredFields(b) by {
      assert |e.name| > 0 && |e.code| > 0 && |e.location| > 0 && |e.category| > 0;
    }
    assert NewEventDraft(b, filename) == ToDraft(e) by {
      assert NewEventDraft(b, filename).description == Some(e.description);
    }
    ValidateAcceptsValid(e, now);
  }

  /** A valid event with an unused code is created, and both lookups and
      its owner's listing then return it. */
  method CreateThenLookUp(store: EventStore, e: Event, filename: string, now: int) returns (id: EventId)
    requires store.Valid() && ValidEvent(e, now) && e.image == ImagePath(filename)
    requires !CodeTaken(store.events, e.code)
    modifies store
    ensures store.Valid()
    ensures GetById(store.events, id) == Some(Doc(id, e))
    ensures GetByCode(store.events, store.nextId, e.code) == Some(Doc(id, e))
    ensures Doc(id, e) in ListByOwner(store.events, store.nextId, e.user)
  {
    var body := BodyOf(e);
    BodyOfValidEvent(e, filename, now);
    var st, saved := store.Create(body, Some(filename), now);
    assert st == Created(MsgCreated);
    id := saved.value.id;
    GetByCodeFindsOwner(store.events, store.nextId, id);
  }

  /** An existing user joins an existing event on a fresh participation
      store, is refused a second join, forfeits, and is then no longer joined. */
  method ParticipantJoinsAndLeaves(events: map<EventId, Event>, users: set<UserId>, user: UserId, event: EventId)
    returns (first: Status, second: Status, leave: Status, joinedAfter: bool)
    requires event in events && user in users
    ensures first == Created(MsgJoinCreated) && first.Code() == 201
    ensures second == BadRequest(MsgAlreadyJoined) && second.Code() == 400
    ensures leave == Ok(MsgForfeited) && leave.Code() == 200
    ensures !joinedAfter
  {
    var joins := new JoinStore();
    first, second := JoinTwice(joins, events, users, user, event);
    leave := joins.Forfeit(Some(user), Some(event));
    joinedAfter := IsJoined(joins.joins, user, event);
  }

  /** Joining a pair that is not joined twice: the first join is accepted,
      the second refused, and the pair ends up joined. */
  method JoinTwice(joins: JoinStore, events: map<EventId, Event>, users: set<UserId>, user: UserId, event: EventId)
    returns (first: Status, second: Status)
    requires joins.Valid() && !IsJoined(joins.joins, user, event)
    requires event in events && user in users
    modifies joins
    ensures joins.Valid() && IsJoined(joins.joins, user, event)
    ensures first == Created(MsgJoinCreated) && second == BadRequest(MsgAlreadyJoined)
  {
    var join1, join2;
    first, join1 := joins.Join(Some(user), Some(event), events, users);
    second, join2 := joins.Join(Some(user), Some(event), events, users);
  }
}

=== FILE: wrappers.dfy ===
/** Optional values: a request field that may be absent, a lookup that may miss. */
module Wrappers {

  datatype Option<+T> = None | Some(value: T) {

    /** The value, or `default` when there is none (JavaScript's `x || default`
        for a field whose only falsy value is its absence). */
    function GetOr(default: T): T {
      match this
      case Some(v) => v
      case None => default
    }
  }
}
